=== FILE: README.md ===
# IPL win predictor: match-state feature derivation

This project models the feature derivation of the IPL win predictor, in Dafny.
The predictor turns a second-innings chase into numeric features: runs left,
balls left, wickets left, the current and required run rates, and three
percentages. A random-forest classifier is trained on these features, and a
prediction page feeds it the same features. The formulas exist twice:

- **Training script.** `data_processing_and_model_training.py`, lines 37-134. It works over the
  ball-by-ball table. It computes each match's first-innings total and merges it into the match
  table. It renames two legacy franchises and keeps matches between the eight current franchises
  with no rain-rule adjustment. It joins the deliveries and keeps the chasing innings. It then
  takes per-match running sums of runs and dismissals, derives the features and the win label,
  and drops incomplete or extreme rows.
- **Prediction page.** `app.py`, lines 64-89. It recomputes the same features from the target,
  score, overs and wickets a user enters, and lays them out as a one-row frame.

Modules:

- `Wrappers` (`wrappers.dfy`): `Option`, standing for a pandas cell that may be NaN.
- `Frames` (`frames.dfy`): frame cells, order-preserving row selection, and subsequences.
- `Preprocessing` (`preprocessing.dfy`): lines 37-70.
  - The first-innings totals are a loop (`SumFirstInnings`) proved against a specification
    function.
- `FeatureEngineering` (`features.dfy`): lines 75-134.
  - The group-wise running sums are a loop (`GroupCumSum`) proved against a specification
    function.
  - `BuildTrainingSet` runs the script's steps in order, each step replacing the table it works on.
- `Service` (`service.dfy`): the page's recomputation and its frame.
- `Parity` (`parity.dfy`): proves that the two copies of the formulas agree.
  - For one ball: layout, values, and the guard branch each rate and percentage takes.
  - For every row of the final training table.

Modelling conventions:

- Counts are `int`. Rates and percentages are exact `real`s.
- `over * 6 + ball` and `120 - overs * 6` are taken at face value: 10.3 overs is 61.8 balls on the
  page.
- The target is the first-innings total, with no +1.
- A pandas inner merge is a join ordered by the left table, then by the right table.
- NaN is `None`. Only the city, the winner and the dismissal marker can be missing, so `dropna`
  can only remove rows with no city. A missing winner never equals the batting team, so its
  label is 0.
- As the code does, only the match table's `team1`/`team2` are renamed. The deliveries'
  batting and bowling teams and the match winner keep their recorded names. A retained
  "Delhi Daredevils" match therefore reaches the training table with batting team
  "Delhi Daredevils". The label compares two unrenamed names, so it stays consistent.
- Two details are kept exactly as the code has them:
  - The page computes `crr` as `score / overs`, not `score * 6 / balls`. `Parity.RowParity`
    shows the two agree whenever six times the overs equals the balls bowled.
  - A negative number of balls left also gives the required-rate sentinel 20, because the guard
    is `balls_left > 0`.

## Model

| member | source | states |
|---|---|---|
| `Preprocessing.FirstInningsTotals` | data_processing_and_model_training.py:37-38 | a match has an entry exactly when it has a first-innings delivery, and the entry is the sum of that innings' runs |
| `Preprocessing.SumFirstInnings` | data_processing_and_model_training.py:37-38 | the accumulation loop computes exactly those first-innings totals |
| `Preprocessing.AttachTotals` | data_processing_and_model_training.py:41 | inner join: one row for each match that has a total, in match-table order and duplicates included, carrying that total; no other row |
| `Preprocessing.Rename` | data_processing_and_model_training.py:51-56 | 'Delhi Daredevils' becomes 'Delhi Capitals', 'Deccan Chargers' becomes 'Sunrisers Hyderabad', and every other name is unchanged |
| `Preprocessing.RenameIdempotent` | data_processing_and_model_training.py:51-54 | renaming twice equals renaming once; no renamed name is a legacy name |
| `Preprocessing.RenameTeams` | data_processing_and_model_training.py:55-56 | only the two team columns change, row by row, through the renaming |
| `Preprocessing.MatchTable` | data_processing_and_model_training.py:37-63 | the match table after the first merge, the renaming and the fixture filter: every retained match has both teams among the eight franchises and no rain-rule adjustment (origin and total in `RetainedMatches`) |
| `Preprocessing.RetainedMatches` | data_processing_and_model_training.py:37-63 | every retained match has both renamed teams among the eight franchises and no rain-rule adjustment; it comes from an input match, and its total is that match's first-innings run sum |
| `Preprocessing.InningOneRunsNonNegative` | data_processing_and_model_training.py:37-38 | with no negative run counts, a first-innings total is never negative |
| `Preprocessing.JoinOne` | data_processing_and_model_training.py:69 | a match's joined rows are its deliveries, selected by match id in delivery-table order and duplicates included, each combined with the match |
| `Preprocessing.Join` | data_processing_and_model_training.py:69 | the merge holds exactly the (match, delivery) combinations with equal match ids |
| `Preprocessing.JoinByMatch` | data_processing_and_model_training.py:69 | the merged rows of one match id, in merge order, are the merge of the match-table rows with that id: selecting the id after the merge equals selecting it before |
| `Preprocessing.JoinOfOneMatch` | data_processing_and_model_training.py:69 | when one match-table row has the id, that match's merged rows are its deliveries in delivery-table order, each combined with it |
| `Preprocessing.ChaseTable` | data_processing_and_model_training.py:37-70 | the second merge restricted to inning 2: every row is a second-innings ball (origin in `ChaseRows`, completeness in `ChaseRowsComplete`, per-match order in `ChaseRowsOfOneMatch`) |
| `Preprocessing.ChaseRows` | data_processing_and_model_training.py:37-70 | every chase-table row is a retained current fixture combined with one of its inning-2 input deliveries, and its `total_runs_x` is the first-innings run sum of its match |
| `Preprocessing.ChaseRowsComplete` | data_processing_and_model_training.py:69-70 | every inning-2 delivery of a retained match reaches the chase table |
| `Preprocessing.CombineAllSecondInnings` | data_processing_and_model_training.py:69-70 | keeping inning 2 after combining with a match equals combining the inning-2 deliveries |
| `Preprocessing.ChaseRowsOfOneMatch` | data_processing_and_model_training.py:69-70 | for a match whose id is unique in the match table, its chase-table rows in order are its inning-2 deliveries in delivery-table order, the order the running sums accumulate in |
| `Frames.Filter` | data_processing_and_model_training.py:59-63 | boolean-mask selection keeps exactly the rows meeting the mask and never adds rows |
| `Frames.FilterCounts` | data_processing_and_model_training.py:59-63 | selection keeps every copy of a selected row and no copy of any other row |
| `Frames.FilterConcat` | data_processing_and_model_training.py:69 | selecting from a concatenation selects from each part |
| `Frames.FilterAllOrNone` | data_processing_and_model_training.py:69 | a mask every row meets keeps the table; a mask no row meets empties it |
| `Frames.FilterIsSubsequence` | data_processing_and_model_training.py:129-134 | selected rows keep their original relative order |
| `Frames.FilterTwice` | data_processing_and_model_training.py:129-134 | two successive selections equal one selection by the conjunction of the masks |
| `FeatureEngineering.GroupCumSum` | data_processing_and_model_training.py:78-84 | the group-wise cumulative sum at each row is the sum over the rows up to and including it that share its match id |
| `FeatureEngineering.RunningTotalMonotone` | data_processing_and_model_training.py:78 | with non-negative values, a group's running total never decreases |
| `FeatureEngineering.Dismissed` | data_processing_and_model_training.py:83 | the dismissal flag is 1 exactly when a dismissed player is recorded, else 0 |
| `FeatureEngineering.CurrentRunRate` | data_processing_and_model_training.py:90-94 | 0 when no ball is bowled (or fewer); otherwise non-negative for a non-negative score |
| `FeatureEngineering.RequiredRunRate` | data_processing_and_model_training.py:97-101 | exactly 20 when balls left is at most 0, negatives included; otherwise non-positive exactly when no runs are left to score |
| `FeatureEngineering.RunsLeftPercentage` | data_processing_and_model_training.py:106-110 | 0 when the target is not positive; otherwise non-positive exactly when the target is reached, and at most 1 exactly when runs left do not exceed the target |
| `FeatureEngineering.RatiosScale` | data_processing_and_model_training.py:90-110 | under its guard, crr times balls bowled is six times the score, rrr times balls left is six times the runs left, and the runs-left share times the target is the runs left |
| `FeatureEngineering.Label` | data_processing_and_model_training.py:119 | the label is 0 or 1, and it is 1 exactly when the winner is the batting team |
| `FeatureEngineering.Engineer` | data_processing_and_model_training.py:79-119 | balls bowled is over times 6 plus ball; balls bowled plus balls left is 120; score plus runs left is the target; wickets plus dismissals is 10; crr is 0 without balls bowled, rrr is 20 without balls left, the runs-left share is 0 without a positive target; the wickets and balls percentages times 10 and 120 give wickets and balls left; the label as above |
| `FeatureEngineering.EngineerAll` | data_processing_and_model_training.py:78-119 | each row's current score and dismissal count are its match's running sums over the inning-2 rows up to and including it |
| `FeatureEngineering.CurrentScoreNonDecreasing` | data_processing_and_model_training.py:78 | within one match, with non-negative runs, current_score never decreases from a row to a later one |
| `FeatureEngineering.WicketsNonIncreasing` | data_processing_and_model_training.py:83-84 | within one match, wickets never increases from a row to a later one, and it is at most 10 |
| `FeatureEngineering.Select` | data_processing_and_model_training.py:122-126 | the column selection drops the winner and dismissal columns, so a selected row has a missing cell exactly when its ball has no city |
| `FeatureEngineering.SelectAll` | data_processing_and_model_training.py:122-126 | one selected row per engineered row, in the same order |
| `FeatureEngineering.RowCells` | data_processing_and_model_training.py:122-126 | the training row has one cell per training column, and the city cell is missing exactly when the city is |
| `FeatureEngineering.MissingOnlyCity` | data_processing_and_model_training.py:122-129 | a training row has a missing cell exactly when its city is missing, so `dropna` drops exactly the rows without a city |
| `FeatureEngineering.Clean` | data_processing_and_model_training.py:129-134 | the four cleaning filters keep exactly the rows with a city, nonzero balls left, rrr <= 36 and crr <= 36, and never add rows (copies and order in `CleanKeepsExactlySurvivors`) |
| `FeatureEngineering.CleanKeepsExactlySurvivors` | data_processing_and_model_training.py:129-134 | the four cleaning filters keep exactly the rows with a city, nonzero balls left, rrr <= 36 and crr <= 36, every copy of each, in their original order |
| `FeatureEngineering.TrainingSet` | data_processing_and_model_training.py:37-134 | the final table: every row survives cleaning, and there are no more rows than chasing-innings balls of retained matches (origin in `TrainingRowOrigin`) |
| `FeatureEngineering.EngineeredRowSource` | data_processing_and_model_training.py:78-134 | every cleaned row is the selected row of one ball of the table it came from, with that ball's running score and a non-negative running dismissal count |
| `FeatureEngineering.TrainingRowOrigin` | data_processing_and_model_training.py:37-134 | every final row is clean and comes from an inning-2 ball of a retained match; its target is the first-innings total, its balls left come from the over and ball, and its label says whether the batting side won |
| `FeatureEngineering.BuildTrainingSet` | data_processing_and_model_training.py:37-134 | the step-by-step script yields the specified training table: clean rows forming a subsequence of the engineered table |
| `Service.WithinWidgetRanges` | app.py:44-59 | the number inputs' ranges: target and score at least 0, overs 0 to 20, wickets 0 to 10; within them balls left is 0 to 120 and wickets left 0 to 10 |
| `Service.PageAccepts` | app.py:7-59 | what the page can send: both teams among the eight offered names, the city among the offered cities, every number in range; neither legacy franchise name is ever accepted |
| `Service.Predictors` | app.py:64-73 | runs left plus score is the target; balls left plus six times the overs is 120; wickets left plus wickets is 10; crr is 0 without positive overs; rrr is 20 without positive balls left; the runs-left share is 0 without a positive target; the wickets and balls percentages times 10 and 120 give wickets and balls left |
| `Service.RatiosScale` | app.py:67-73 | under its guard, crr times overs is the score, rrr times balls left is six times the runs left, and the runs-left share times the target is the runs left |
| `Service.WidgetRangeBounds` | app.py:44-73 | within the input ranges: wickets left in [0,10], balls left in [0,120], both percentages in [0,1]; 0 overs gives crr 0, 20 overs gives rrr 20, target 0 gives runs-left share 0 |
| `Service.WorkedExample` | app.py:64-73 | target 180, score 90, 10 overs, 2 wickets gives 90, 60, 8, crr 9, rrr 9, 0.8, 0.5, 0.5 |
| `Service.InputCells` | app.py:76-89 | the page's frame has one cell per input column, and none is missing |
| `Parity.ColumnsAgree` | app.py:76-89 | the page's columns are the training columns without the final `result` column, in the same order |
| `Parity.TeamChoicesAreCurrentFranchises` | app.py:7-11 | the page's team choices are exactly the eight franchises the training script keeps, so neither legacy name is offered |
| `Parity.SameCurrentRate` | app.py:67 | the page's score over overs equals the script's six times score over balls bowled when six times the overs is the balls bowled, and both are 0 otherwise |
| `Parity.RatesAgree` | app.py:64-73 | for a snapshot describing the same ball, the page's balls left, crr, rrr and runs-left share equal the training row's |
| `Parity.RowParity` | app.py:64-73 | for a snapshot describing the same ball, the page's twelve cells equal the training row's, and each guard takes the same branch |
| `Parity.SnapshotOf` | app.py:44-59 | the page inputs describing a training row: target, score from runs left, overs from balls left, wickets fallen from wickets left; they are within the input ranges exactly when the target, score, balls left (0 to 120) and wickets left (0 to 10) are |
| `Parity.ChaseScoreNonNegative` | data_processing_and_model_training.py:37-78 | with no negative run counts, every chase-table row has a non-negative target and running score |
| `Parity.TrainingRowSource` | data_processing_and_model_training.py:78-134 | every final row is the clean selected row of some row of the chase table, at some position, with that position's running score and running dismissal count; the dismissal count is not negative, and with no negative run counts neither are the score and the target |
| `Parity.TrainingSetParity` | app.py:7-89 | for every row of the final training table, the page's recomputation reproduces exactly its twelve feature cells from the inputs describing that ball; those inputs never take the no-balls-left branch; with no negative run counts their numbers are in range exactly when balls left is 0 to 120 and wickets left is not negative, and the page can send them exactly when, in addition, both teams and the city are among its choices |

## Left out

- CSV loading, the pickled model file and every console message are file and terminal I/O
  (data_processing_and_model_training.py:24-33, 197-200; app.py:24).
- The scikit-learn layer is foreign library code with floating-point numerics. This covers the
  train/test split, scaling, one-hot encoding, random-forest fitting and prediction, accuracy and
  feature importances. For the same reason, the classifier's promise that the win and loss
  probabilities sum to 1 is not modelled.
- Plotting (matplotlib/seaborn) is output only.
- The page's widgets and its rounded percentage display are UI. Only the widget ranges and the
  box choices are kept, as `Service.WithinWidgetRanges` and `Service.PageAccepts`.
- IEEE-754 effects are not modelled: all rates are exact rationals, so `10.1 * 6` is exactly 60.6.
- pandas dtypes are not modelled. The two inner merges are joins over sequences. The groupby
  sum keeps only inning 1 as it accumulates, which matches grouping by match and innings and then
  selecting innings 1.
- The `try`/`except` around feature engineering, with its exit on error, is not modelled.
  `np.where` evaluates both branches, so a zero divisor gives inf or NaN in pandas rather than an
  exception, and `np.where` then discards that value. The model computes the kept branch only.
- Parity.TrainingSetParity: the twelve cells agree for every training row, but some training
  rows have no input the page can send. The largest group comes from the renaming. Only the
  match table's teams are renamed (data_processing_and_model_training.py:55-56). So a retained
  ball whose delivery records "Delhi Daredevils" or "Deccan Chargers" as batting or bowling team
  keeps that name, while the page offers only the eight current names (app.py:7-11). A row whose
  city is not among the page's cities (app.py:14-21) cannot be entered either. A row with more
  than 120 balls bowled survives cleaning (its rrr is the sentinel 20) but needs more than 20
  overs. A row with more than 10 dismissals needs more than 10 wickets fallen. Conversely, the
  page's 20-overs input, which takes the rrr sentinel branch, matches no training row, because
  cleaning drops rows with no balls left. The lemma states exactly when the page accepts a
  training row's inputs; it does not say which rows of a given data set fall outside.

=== FILE: features.dfy ===
/**
 * Feature engineering of the training script: per-match running score and
 * dismissals, the derived chase features with their divide-by-zero guards,
 * the win label, the selection of the training columns, and the cleaning
 * filters that produce the final training table.
 */
module FeatureEngineering {
  import opened Wrappers
  import opened Frames
  import opened Preprocessing

  // ---------------------------------------------------------------------
  // Per-match running sums (groupby match id, cumsum)
  // ---------------------------------------------------------------------

  /** Sum of `vals[j]` over the first `n` rows whose key is `k`. */
  function RunningTotal(keys: seq<int>, vals: seq<int>, k: int, n: nat): int
    requires |keys| == |vals| && n <= |keys|
  {
    if n == 0 then 0
    else RunningTotal(keys, vals, k, n - 1) + (if keys[n - 1] == k then vals[n - 1] else 0)
  }

  /** The cumulative sum of `vals` within each key group, in row order. */
  function CumSum(keys: seq<int>, vals: seq<int>): seq<int>
    requires |keys| == |vals|
  {
    seq(|keys|, i requires 0 <= i < |keys| => RunningTotal(keys, vals, keys[i], i + 1))
  }

  /**
   * Group-wise cumulative sum, one row at a time, keeping the running total
   * of every group seen so far.
   */
  method GroupCumSum(keys: seq<int>, vals: seq<int>) returns (sums: seq<int>)
    requires |keys| == |vals|
    ensures |sums| == |keys|
    ensures forall i :: 0 <= i < |keys| ==> sums[i] == RunningTotal(keys, vals, keys[i], i + 1)
    ensures sums == CumSum(keys, vals)
  {
    var acc: map<int, int> := map[];
    sums := [];
    var i := 0;
    while i < |keys|
      invariant 0 <= i <= |keys|
      invariant |sums| == i
      invariant forall j :: 0 <= j < i ==> sums[j] == RunningTotal(keys, vals, keys[j], j + 1)
      invariant forall k :: RunningTotal(keys, vals, k, i) == (if k in acc then acc[k] else 0)
    {
      var k := keys[i];
      var total := (if k in acc then acc[k] else 0) + vals[i];
      acc := acc[k := total];
      sums := sums + [total];
      i := i + 1;
    }
  }

  /** With non-negative values, a group's running total never decreases. */
  lemma {:induction false} RunningTotalMonotone(keys: seq<int>, vals: seq<int>, k: int, m: nat, n: nat)
    requires |keys| == |vals| && m <= n <= |keys|
    requires forall j :: 0 <= j < |vals| ==> vals[j] >= 0
    ensures RunningTotal(keys, vals, k, m) <= RunningTotal(keys, vals, k, n)
  {
    if m < n {
      RunningTotalMonotone(keys, vals, k, m, n - 1);
    }
  }

  // ---------------------------------------------------------------------
  // Columns of the chase table fed to the running sums
  // ---------------------------------------------------------------------

  function MatchIds(rows: seq<ChaseRow>): (r: seq<int>)
    ensures |r| == |rows| && forall i :: 0 <= i < |rows| ==> r[i] == rows[i].matchId
  {
    seq(|rows|, i requires 0 <= i < |rows| => rows[i].matchId)
  }

  function RunsColumn(rows: seq<ChaseRow>): (r: seq<int>)
    ensures |r| == |rows| && forall i :: 0 <= i < |rows| ==> r[i] == rows[i].totalRunsY
  {
    seq(|rows|, i requires 0 <= i < |rows| => rows[i].totalRunsY)
  }

  /** A dismissal marker becomes 1 when a player was dismissed on the ball, 0 when the cell is empty. */
  function Dismissed(c: ChaseRow): (r: int)
    ensures r == 1 <==> c.playerDismissed.Some?
    ensures r == 0 <==> c.playerDismissed.None?
  {
    if c.playerDismissed.Some? then 1 else 0
  }

  function DismissalColumn(rows: seq<ChaseRow>): (r: seq<int>)
    ensures |r| == |rows| && forall i :: 0 <= i < |rows| ==> r[i] == Dismissed(rows[i])
  {
    seq(|rows|, i requires 0 <= i < |rows| => Dismissed(rows[i]))
  }

  // ---------------------------------------------------------------------
  // Per-row formulas
  // ---------------------------------------------------------------------

  function BallsBowled(over: int, ball: int): int
  {
    over * 6 + ball
  }

  function BallsLeft(ballsBowled: int): int
  {
    120 - ballsBowled
  }

  /** Runs per six balls so far, or 0 before the first ball. */
  function CurrentRunRate(score: int, ballsBowled: int): (r: real)
    ensures ballsBowled <= 0 ==> r == 0.0
    ensures ballsBowled > 0 && score >= 0 ==> r >= 0.0
  {
    if ballsBowled > 0 then (score * 6) as real / ballsBowled as real else 0.0
  }

  /** Runs per six balls still needed, or the sentinel 20 when no ball is left (or fewer than none). */
  function RequiredRunRate(runsLeft: int, ballsLeft: int): (r: real)
    ensures ballsLeft <= 0 ==> r == 20.0
    ensures ballsLeft > 0 ==> (r <= 0.0 <==> runsLeft <= 0)
  {
    if ballsLeft > 0 then (runsLeft * 6) as real / ballsLeft as real else 20.0
  }

  /** Share of the target still to score, or 0 when the target is not positive. */
  function RunsLeftPercentage(runsLeft: int, target: int): (r: real)
    ensures target <= 0 ==> r == 0.0
    ensures target > 0 ==> (r <= 0.0 <==> runsLeft <= 0) && (r <= 1.0 <==> runsLeft <= target)
  {
    if target > 0 then runsLeft as real / target as real else 0.0
  }

  /**
   * What the three ratios mean when their guard holds: the rate times the
   * balls gives six times the runs, the share times the target gives the
   * runs left.
   */
  lemma RatiosScale(score: int, ballsBowled: int, runsLeft: int, ballsLeft: int, target: int)
    ensures ballsBowled > 0 ==> CurrentRunRate(score, ballsBowled) * ballsBowled as real == (6 * score) as real
    ensures ballsLeft > 0 ==> RequiredRunRate(runsLeft, ballsLeft) * ballsLeft as real == (6 * runsLeft) as real
    ensures target > 0 ==> RunsLeftPercentage(runsLeft, target) * target as real == runsLeft as real
  {
  }

  /** 1 exactly when the batting side is the recorded winner; an empty winner never matches. */
  function Label(battingTeam: string, winner: Option<string>): (r: int)
    ensures r == 0 || r == 1
    ensures r == 1 <==> winner == Some(battingTeam)
  {
    if winner.Some? && winner.value == battingTeam then 1 else 0
  }

  /** A chase-table row with every column the script adds to it. */
  datatype Engineered = Engineered(
    row: ChaseRow,
    currentScore: int,
    ballsBowled: int,
    ballsLeft: int,
    wickets: int,
    runsLeft: int,
    crr: real,
    rrr: real,
    wicketsLeftPercentage: real,
    ballsLeftPercentage: real,
    runsLeftPercentage: real,
    result: int)

  /**
   * The derived columns of one row, given the running score and the running
   * number of dismissals of its match.
   */
  function Engineer(c: ChaseRow, currentScore: int, dismissals: int): (e: Engineered)
    ensures e.row == c && e.currentScore == currentScore
    ensures e.ballsBowled == c.over * 6 + c.ball
    ensures e.ballsBowled + e.ballsLeft == 120
    ensures e.currentScore + e.runsLeft == c.totalRunsX
    ensures e.wickets + dismissals == 10
    ensures e.crr == CurrentRunRate(currentScore, e.ballsBowled) && (e.ballsBowled <= 0 ==> e.crr == 0.0)
    ensures e.rrr == RequiredRunRate(e.runsLeft, e.ballsLeft) && (e.ballsLeft <= 0 ==> e.rrr == 20.0)
    ensures e.wicketsLeftPercentage * 10.0 == e.wickets as real
    ensures e.ballsLeftPercentage * 120.0 == e.ballsLeft as real
    ensures e.runsLeftPercentage == RunsLeftPercentage(e.runsLeft, c.totalRunsX)
    ensures c.totalRunsX <= 0 ==> e.runsLeftPercentage == 0.0
    ensures (e.result == 0 || e.result == 1) && (e.result == 1 <==> c.winner == Some(c.battingTeam))
  {
    var ballsBowled := BallsBowled(c.over, c.ball);
    var ballsLeft := BallsLeft(ballsBowled);
    var wickets := 10 - dismissals;
    var runsLeft := c.totalRunsX - currentScore;
    Engineered(
      c, currentScore, ballsBowled, ballsLeft, wickets, runsLeft,
      CurrentRunRate(currentScore, ballsBowled),
      RequiredRunRate(runsLeft, ballsLeft),
      wickets as real / 10.0,
      ballsLeft as real / 120.0,
      RunsLeftPercentage(runsLeft, c.totalRunsX),
      Label(c.battingTeam, c.winner))
  }

  /** The whole chase table with its derived columns, the running sums taken per match in row order. */
  function EngineerAll(rows: seq<ChaseRow>): (es: seq<Engineered>)
    ensures |es| == |rows|
    ensures forall i :: 0 <= i < |rows| ==>
      es[i] == Engineer(rows[i],
                        RunningTotal(MatchIds(rows), RunsColumn(rows), rows[i].matchId, i + 1),
                        RunningTotal(MatchIds(rows), DismissalColumn(rows), rows[i].matchId, i + 1))
    ensures forall i :: 0 <= i < |rows| ==>
      es[i].currentScore == RunningTotal(MatchIds(rows), RunsColumn(rows), rows[i].matchId, i + 1)
  {
    var scores := CumSum(MatchIds(rows), RunsColumn(rows));
    var outs := CumSum(MatchIds(rows), DismissalColumn(rows));
    seq(|rows|, i requires 0 <= i < |rows| => Engineer(rows[i], scores[i], outs[i]))
  }

  /**
   * Within one match, when no delivery carries negative runs, the running
   * score at a later row is at least the running score at an earlier row.
   */
  lemma CurrentScoreNonDecreasing(rows: seq<ChaseRow>, i: nat, j: nat)
    requires i <= j < |rows| && rows[i].matchId == rows[j].matchId
    requires forall k :: 0 <= k < |rows| ==> rows[k].totalRunsY >= 0
    ensures EngineerAll(rows)[i].currentScore <= EngineerAll(rows)[j].currentScore
  {
    var ids, runs := MatchIds(rows), RunsColumn(rows);
    RunningTotalMonotone(ids, runs, rows[i].matchId, i + 1, j + 1);
  }

  /**
   * Within one match the wickets column never increases from one row to a
   * later one, and it never exceeds 10.
   */
  lemma WicketsNonIncreasing(rows: seq<ChaseRow>, i: nat, j: nat)
    requires i <= j < |rows| && rows[i].matchId == rows[j].matchId
    ensures EngineerAll(rows)[j].wickets <= EngineerAll(rows)[i].wickets <= 10
  {
    var ids, flags := MatchIds(rows), DismissalColumn(rows);
    RunningTotalMonotone(ids, flags, rows[i].matchId, 0, i + 1);
    RunningTotalMonotone(ids, flags, rows[i].matchId, i + 1, j + 1);
  }

  // ---------------------------------------------------------------------
  // Training columns
  // ---------------------------------------------------------------------

  /** A row of the final training table. */
  datatype FeatureRow = FeatureRow(
    battingTeam: string,
    bowlingTeam: string,
    city: Option<string>,
    runsLeft: int,
    ballsLeft: int,
    wickets: int,
    totalRunsX: int,
    crr: real,
    rrr: real,
    wicketsLeftPercentage: real,
    ballsLeftPercentage: real,
    runsLeftPercentage: real,
    result: int)

  /** The training columns, in order; the label comes last. */
  const FeatureColumns: seq<string> := [
    "batting_team", "bowling_team", "city", "runs_left", "balls_left",
    "wickets", "total_runs_x", "crr", "rrr", "wickets_left_percentage",
    "balls_left_percentage", "runs_left_percentage", "result"
  ]

  function Select(e: Engineered): (f: FeatureRow)
    ensures HasNoMissing(f) <==> e.row.city.Some?
  {
    MissingOnlyCity();
    FeatureRow(e.row.battingTeam, e.row.bowlingTeam, e.row.city, e.runsLeft, e.ballsLeft,
               e.wickets, e.row.totalRunsX, e.crr, e.rrr, e.wicketsLeftPercentage,
               e.ballsLeftPercentage, e.runsLeftPercentage, e.result)
  }

  function SelectAll(es: seq<Engineered>): (r: seq<FeatureRow>)
    ensures |r| == |es| && forall i :: 0 <= i < |es| ==> r[i] == Select(es[i])
  {
    seq(|es|, i requires 0 <= i < |es| => Select(es[i]))
  }

  /** A training row as the cells of a frame, one per entry of FeatureColumns. */
  function RowCells(f: FeatureRow): (cells: seq<Cell>)
    ensures |cells| == |FeatureColumns|
    ensures cells[2] == NaN <==> f.city.None?
  {
    [Text(f.battingTeam), Text(f.bowlingTeam),
     if f.city.Some? then Text(f.city.value) else NaN,
     Num(f.runsLeft as real), Num(f.ballsLeft as real), Num(f.wickets as real),
     Num(f.totalRunsX as real), Num(f.crr), Num(f.rrr), Num(f.wicketsLeftPercentage),
     Num(f.ballsLeftPercentage), Num(f.runsLeftPercentage), Num(f.result as real)]
  }

  // ---------------------------------------------------------------------
  // Cleaning
  // ---------------------------------------------------------------------

  /** No cell of the row is missing (only the city can be). */
  predicate HasNoMissing(f: FeatureRow)
  {
    NaN !in RowCells(f)
  }

  /**
   * The winner and dismissal columns are not among the selected columns, so
   * the city is the only cell of a training row that can be missing.
   */
  lemma MissingOnlyCity()
    ensures forall f: FeatureRow :: HasNoMissing(f) <==> f.city.Some?
  {
    forall f: FeatureRow ensures HasNoMissing(f) <==> f.city.Some? {
      assert RowCells(f)[2] == NaN <==> f.city.None?;
      if f.city.Some? {
        assert forall k :: 0 <= k < |RowCells(f)| ==> RowCells(f)[k] != NaN;
      }
    }
  }

  predicate HasBallsLeft(f: FeatureRow)
  {
    f.ballsLeft != 0
  }

  predicate RrrWithinSix(f: FeatureRow)
  {
    f.rrr <= 36.0
  }

  predicate CrrWithinSix(f: FeatureRow)
  {
    f.crr <= 36.0
  }

  /** All four cleaning conditions at once. */
  predicate Survives(f: FeatureRow)
  {
    f.city.Some? && f.ballsLeft != 0 && f.rrr <= 36.0 && f.crr <= 36.0
  }

  /** Missing rows, rows with no ball left, then the two run-rate outliers are dropped, in that order. */
  function Clean(rows: seq<FeatureRow>): (r: seq<FeatureRow>)
    ensures |r| <= |rows|
    ensures forall f :: f in r <==> f in rows && Survives(f)
  {
    MissingOnlyCity();
    var complete := Filter(rows, HasNoMissing);
    var playable := Filter(complete, HasBallsLeft);
    var paced := Filter(playable, RrrWithinSix);
    Filter(paced, CrrWithinSix)
  }

  /**
   * The four successive filters keep exactly the rows meeting all four
   * conditions, and keep them in their original order.
   */
  lemma CleanKeepsExactlySurvivors(rows: seq<FeatureRow>)
    ensures Clean(rows) == Filter(rows, Survives)
    ensures forall f :: f in Clean(rows) <==> f in rows && Survives(f)
    ensures IsSubsequence(Clean(rows), rows)
    ensures forall f :: multiset(Clean(rows))[f] == if Survives(f) then multiset(rows)[f] else 0
  {
    var step1 := (f: FeatureRow) => HasNoMissing(f) && HasBallsLeft(f);
    var step2 := (f: FeatureRow) => step1(f) && RrrWithinSix(f);
    MissingOnlyCity();
    FilterTwice(rows, HasNoMissing, HasBallsLeft, step1);
    FilterTwice(rows, step1, RrrWithinSix, step2);
    FilterTwice(rows, step2, CrrWithinSix, Survives);
    FilterIsSubsequence(rows, Survives);
    FilterCounts(rows, Survives);
  }

  // ---------------------------------------------------------------------
  // The whole pipeline
  // ---------------------------------------------------------------------

  /** The training table the script hands to the classifier (with its label column). */
  function TrainingSet(matches: seq<Match>, deliveries: seq<Delivery>): (r: seq<FeatureRow>)
    ensures |r| <= |ChaseTable(matches, deliveries)|
    ensures forall f :: f in r ==> Survives(f)
  {
    Clean(SelectAll(EngineerAll(ChaseTable(matches, deliveries))))
  }

  /**
   * Every row of the final table is a chasing-innings ball of a retained
   * match: its target is that match's first-innings total, its balls left
   * come from the ball's over and number, and its label says whether the
   * batting side won.
   */
  lemma {:induction false} TrainingRowOrigin(matches: seq<Match>, deliveries: seq<Delivery>, f: FeatureRow)
    requires f in TrainingSet(matches, deliveries)
    ensures f.city.Some? && f.ballsLeft != 0 && f.rrr <= 36.0 && f.crr <= 36.0
    ensures exists c :: c in ChaseTable(matches, deliveries)
                        && c.inning == 2 && f.totalRunsX == c.totalRunsX == InningOneRuns(deliveries, c.matchId)
                        && f.battingTeam == c.battingTeam && f.bowlingTeam == c.bowlingTeam && f.city == c.city
                        && f.ballsLeft == 120 - (c.over * 6 + c.ball)
                        && (f.result == 1 <==> c.winner == Some(c.battingTeam))
  {
    var rows := ChaseTable(matches, deliveries);
    var i, score, outs := EngineeredRowSource(rows, f);
    var c := rows[i];
    var e := Engineer(c, score, outs);
    assert f == Select(e);
    assert f.totalRunsX == c.totalRunsX && f.ballsLeft == e.ballsLeft && f.result == e.result;
    assert c in rows;
    ChaseRows(matches, deliveries, c);
  }

  /** A cleaned row sits at some position of the table it was cleaned from, and survives cleaning. */
  lemma CleanRowIndex(rows: seq<FeatureRow>, f: FeatureRow) returns (i: nat)
    requires f in Clean(rows)
    ensures i < |rows| && rows[i] == f && Survives(f)
  {
    i :| 0 <= i < |rows| && rows[i] == f;
  }

  /**
   * A cleaned training row is the selected row of some delivery of the table
   * it was derived from, with that delivery's running score and running
   * dismissal count, which is never negative.
   */
  lemma EngineeredRowSource(rows: seq<ChaseRow>, f: FeatureRow) returns (i: nat, score: int, outs: int)
    requires f in Clean(SelectAll(EngineerAll(rows)))
    ensures i < |rows| && f == Select(Engineer(rows[i], score, outs)) && Survives(f) && outs >= 0
    ensures score == RunningTotal(MatchIds(rows), RunsColumn(rows), rows[i].matchId, i + 1)
    ensures outs == RunningTotal(MatchIds(rows), DismissalColumn(rows), rows[i].matchId, i + 1)
  {
    var es := EngineerAll(rows);
    var selected := SelectAll(es);
    i := CleanRowIndex(selected, f);
    var ids := MatchIds(rows);
    score := RunningTotal(ids, RunsColumn(rows), rows[i].matchId, i + 1);
    outs := RunningTotal(ids, DismissalColumn(rows), rows[i].matchId, i + 1);
    assert f == Select(es[i]) && es[i] == Engineer(rows[i], score, outs);
    RunningTotalMonotone(ids, DismissalColumn(rows), rows[i].matchId, 0, i + 1);
  }

  /**
   * The script's preprocessing and feature engineering, step by step, each
   * step replacing the table it works on.
   */
  method BuildTrainingSet(matches: seq<Match>, deliveries: seq<Delivery>) returns (finalDf: seq<FeatureRow>)
    ensures finalDf == TrainingSet(matches, deliveries)
    ensures forall f :: f in finalDf ==> f.city.Some? && f.ballsLeft != 0 && f.rrr <= 36.0 && f.crr <= 36.0
    ensures IsSubsequence(finalDf, SelectAll(EngineerAll(ChaseTable(matches, deliveries))))
  {
    var totals := SumFirstInnings(deliveries);
    var matchDf := AttachTotals(matches, totals);
    matchDf := RenameTeams(matchDf);
    matchDf := Filter(matchDf, IsCurrentFixture);

    var deliveryDf := Join(matchDf, deliveries);
    deliveryDf := Filter(deliveryDf, IsSecondInnings);

    var ids := MatchIds(deliveryDf);
    var currentScore := GroupCumSum(ids, RunsColumn(deliveryDf));
    var dismissals := GroupCumSum(ids, DismissalColumn(deliveryDf));
    var engineered := seq(|deliveryDf|, i requires 0 <= i < |deliveryDf| =>
                            Engineer(deliveryDf[i], currentScore[i], dismissals[i]));
    assert engineered == EngineerAll(deliveryDf);

    finalDf := SelectAll(engineered);
    finalDf := Filter(finalDf, HasNoMissing);
    finalDf := Filter(finalDf, HasBallsLeft);
    finalDf := Filter(finalDf, RrrWithinSix);
    finalDf := Filter(finalDf, CrrWithinSix);

    CleanKeepsExactlySurvivors(SelectAll(engineered));
  }
}

=== FILE: frames.dfy ===
/**
 * The few table operations the feature pipeline relies on: a cell of a
 * one-row frame, and boolean-mask row selection (`df[mask]`), which keeps
 * the selected rows in their original order.
 */
module Frames {

  /** One cell of a data frame as the classifier receives it. */
  datatype Cell = Text(s: string) | Num(x: real) | NaN

  /** Row selection by a mask: the rows satisfying `keep`, in their original order. */
  function Filter<T(!new)>(rows: seq<T>, keep: T -> bool): (r: seq<T>)
    ensures |r| <= |rows|
    ensures forall x :: x in r <==> x in rows && keep(x)
  {
    if rows == [] then []
    else if keep(rows[0]) then [rows[0]] + Filter(rows[1..], keep)
    else Filter(rows[1..], keep)
  }

  /**
   * Selection keeps every copy of a selected row and no copy of any other:
   * the selected rows as a bag are the input's rows meeting the mask.
   */
  lemma {:induction false} FilterCounts<T(!new)>(rows: seq<T>, keep: T -> bool)
    ensures forall x :: multiset(Filter(rows, keep))[x] == if keep(x) then multiset(rows)[x] else 0
  {
    if rows != [] {
      FilterCounts(rows[1..], keep);
      assert rows == [rows[0]] + rows[1..];
    }
  }

  /** Selecting from a concatenation selects from each part. */
  lemma {:induction false} FilterConcat<T(!new)>(front: seq<T>, back: seq<T>, keep: T -> bool)
    ensures Filter(front + back, keep) == Filter(front, keep) + Filter(back, keep)
  {
    if front != [] {
      var whole := front + back;
      assert whole[0] == front[0] && whole[1..] == front[1..] + back;
      FilterConcat(front[1..], back, keep);
      if keep(front[0]) {
        assert Filter(whole, keep) == [front[0]] + Filter(front[1..] + back, keep);
        assert Filter(front, keep) == [front[0]] + Filter(front[1..], keep);
      }
    } else {
      assert front + back == back;
    }
  }

  /** Selecting by a mask every row meets keeps the whole table; by a mask no row meets, none of it. */
  lemma {:induction false} FilterAllOrNone<T(!new)>(rows: seq<T>, keep: T -> bool)
    ensures (forall x :: x in rows ==> keep(x)) ==> Filter(rows, keep) == rows
    ensures (forall x :: x in rows ==> !keep(x)) ==> Filter(rows, keep) == []
  {
    if rows != [] {
      FilterAllOrNone(rows[1..], keep);
      assert forall x :: x in rows[1..] ==> x in rows;
      assert rows == [rows[0]] + rows[1..];
    }
  }

  /** `sub` can be obtained from `full` by deleting rows, without reordering. */
  predicate IsSubsequence<T(==)>(sub: seq<T>, full: seq<T>)
    decreases |full|
  {
    if full == [] then sub == []
    else IsSubsequence(sub, full[1..]) || (sub != [] && sub[0] == full[0] && IsSubsequence(sub[1..], full[1..]))
  }

  /** Selecting rows never reorders them. */
  lemma {:induction false} FilterIsSubsequence<T(!new)>(rows: seq<T>, keep: T -> bool)
    ensures IsSubsequence(Filter(rows, keep), rows)
  {
    if rows != [] {
      FilterIsSubsequence(rows[1..], keep);
      if keep(rows[0]) {
        assert Filter(rows, keep)[1..] == Filter(rows[1..], keep);
      }
    }
  }

  /** Two successive selections are one selection by the conjunction of the masks. */
  lemma {:induction false} FilterTwice<T(!new)>(rows: seq<T>, first: T -> bool, second: T -> bool, both: T -> bool)
    requires forall x :: both(x) == (first(x) && second(x))
    ensures Filter(Filter(rows, first), second) == Filter(rows, both)
  {
    if rows != [] {
      FilterTwice(rows[1..], first, second, both);
      if first(rows[0]) {
        assert Filter(rows, first) == [rows[0]] + Filter(rows[1..], first);
        assert Filter(rows, first)[1..] == Filter(rows[1..], first);
      }
    }
  }
}

=== FILE: parity.dfy ===
/**
 * The page recomputes the training features by a second, hand-written copy
 * of the formulas. This module proves the two copies agree: column layout,
 * values, and the guard branch each rate and percentage takes.
 */
module Parity {
  import opened Wrappers
  import opened Preprocessing
  import opened FeatureEngineering
  import Service

  /** The page's frame has the training columns without the label, in the same order. */
  lemma ColumnsAgree()
    ensures |FeatureColumns| == |Service.InputColumns| + 1
    ensures Service.InputColumns == FeatureColumns[..|Service.InputColumns|]
    ensures FeatureColumns[|Service.InputColumns|] == "result"
  {
  }

  /**
   * The page's team boxes offer exactly the eight franchises a retained
   * match is played between, so neither legacy name can be entered.
   */
  lemma TeamChoicesAreCurrentFranchises()
    ensures forall t :: t in Service.TeamChoices <==> t in Teams
    ensures "Delhi Daredevils" !in Service.TeamChoices && "Deccan Chargers" !in Service.TeamChoices
  {
  }

  /**
   * For a snapshot describing the same ball as a chase-table row, the page's
   * balls left and three ratios equal the training row's.
   */
  lemma RatesAgree(s: Service.Snapshot, c: ChaseRow, currentScore: int, dismissals: int)
    requires c.totalRunsX == s.target && currentScore == s.score
    requires BallsBowled(c.over, c.ball) as real == s.overs * 6.0
    ensures var e, r := Engineer(c, currentScore, dismissals), Service.Predictors(s);
      && r.ballsLeft == e.ballsLeft as real
      && r.crr == e.crr && r.rrr == e.rrr && r.runsLeftPercentage == e.runsLeftPercentage
  {
    var e := Engineer(c, currentScore, dismissals);
    var r := Service.Predictors(s);
    assert r.ballsLeft == e.ballsLeft as real;
    SameCurrentRate(currentScore, e.ballsBowled, s.overs);
  }

  /**
   * The training script's rate over balls bowled and the page's rate over
   * overs agree when six times the overs is the number of balls bowled.
   */
  lemma SameCurrentRate(score: int, ballsBowled: int, overs: real)
    requires ballsBowled as real == overs * 6.0
    ensures CurrentRunRate(score, ballsBowled) == if overs > 0.0 then score as real / overs else 0.0
  {
    if overs > 0.0 {
      var perBall := CurrentRunRate(score, ballsBowled);
      var perOver := score as real / overs;
      RatiosScale(score, ballsBowled, 0, 0, 0);
      assert perOver * overs == score as real;
      assert perOver * ballsBowled as real == (perOver * overs) * 6.0;
      SameFactor(perBall, perOver, ballsBowled as real);
    }
  }

  /**
   * A snapshot that describes the same ball as a chase-table row (same
   * teams and city, target equal to the first-innings total, score equal to
   * the running score, wickets fallen equal to the running dismissals, and
   * six times the overs equal to the balls bowled) yields the same twelve
   * feature cells as the training row, each guard taking the same branch.
   */
  lemma {:induction false} RowParity(s: Service.Snapshot, c: ChaseRow, currentScore: int, dismissals: int)
    requires c.battingTeam == s.battingTeam && c.bowlingTeam == s.bowlingTeam && c.city == Some(s.city)
    requires c.totalRunsX == s.target && currentScore == s.score && dismissals == s.wickets
    requires BallsBowled(c.over, c.ball) as real == s.overs * 6.0
    ensures var e := Engineer(c, currentScore, dismissals);
      && (s.overs > 0.0 <==> e.ballsBowled > 0)
      && (Service.Predictors(s).ballsLeft > 0.0 <==> e.ballsLeft > 0)
      && (s.target > 0 <==> c.totalRunsX > 0)
    ensures Service.InputCells(Service.Predictors(s)) == RowCells(Select(Engineer(c, currentScore, dismissals)))[..12]
  {
    RatesAgree(s, c, currentScore, dismissals);
  }

  /** A common nonzero factor cancels. */
  lemma SameFactor(a: real, b: real, x: real)
    requires x != 0.0 && a * x == b * x
    ensures a == b
  {
    assert (a - b) * x == 0.0;
  }

  /** The page's snapshot for a training row: the inputs a user would enter for that ball. */
  function SnapshotOf(f: FeatureRow): (s: Service.Snapshot)
    requires f.city.Some?
    ensures s.target == f.totalRunsX && s.score + f.runsLeft == f.totalRunsX
    ensures s.overs * 6.0 + f.ballsLeft as real == 120.0 && s.wickets + f.wickets == 10
    ensures Service.WithinWidgetRanges(s) <==>
              f.totalRunsX >= 0 && f.runsLeft <= f.totalRunsX && 0 <= f.ballsLeft <= 120 && 0 <= f.wickets <= 10
  {
    Service.Snapshot(f.battingTeam, f.bowlingTeam, f.city.value, f.totalRunsX, f.totalRunsX - f.runsLeft,
                     (120 - f.ballsLeft) as real / 6.0, 10 - f.wickets)
  }

  /**
   * With no negative run counts, every chase-table row has a non-negative
   * target and a non-negative running score.
   */
  lemma ChaseScoreNonNegative(matches: seq<Match>, deliveries: seq<Delivery>, i: nat)
    requires forall d :: d in deliveries ==> d.totalRuns >= 0
    requires i < |ChaseTable(matches, deliveries)|
    ensures var rows := ChaseTable(matches, deliveries);
            rows[i].totalRunsX >= 0 && RunningTotal(MatchIds(rows), RunsColumn(rows), rows[i].matchId, i + 1) >= 0
  {
    var rows := ChaseTable(matches, deliveries);
    forall j | 0 <= j < |rows| ensures rows[j].totalRunsY >= 0 {
      ChaseRows(matches, deliveries, rows[j]);
    }
    RunningTotalMonotone(MatchIds(rows), RunsColumn(rows), rows[i].matchId, 0, i + 1);
    ChaseRows(matches, deliveries, rows[i]);
    InningOneRunsNonNegative(deliveries, rows[i].matchId);
  }

  /**
   * Every row of the final training table is the selected training row of
   * some chase-table row with its running score and dismissal count; the
   * dismissal count is never negative, and with no negative run counts
   * neither are the score and the target.
   */
  lemma TrainingRowSource(matches: seq<Match>, deliveries: seq<Delivery>, f: FeatureRow)
      returns (c: ChaseRow, score: int, outs: int)
    requires f in TrainingSet(matches, deliveries)
    ensures f == Select(Engineer(c, score, outs)) && Survives(f) && outs >= 0
    ensures var rows := ChaseTable(matches, deliveries);
      exists i :: 0 <= i < |rows| && c == rows[i]
                  && score == RunningTotal(MatchIds(rows), RunsColumn(rows), c.matchId, i + 1)
                  && outs == RunningTotal(MatchIds(rows), DismissalColumn(rows), c.matchId, i + 1)
    ensures (forall d :: d in deliveries ==> d.totalRuns >= 0) ==> score >= 0 && c.totalRunsX >= 0
  {
    var rows := ChaseTable(matches, deliveries);
    var i;
    i, score, outs := EngineeredRowSource(rows, f);
    c := rows[i];
    if forall d :: d in deliveries ==> d.totalRuns >= 0 {
      ChaseScoreNonNegative(matches, deliveries, i);
    }
  }

  /**
   * Every row of the final training table is reproduced exactly by the page
   * from the inputs describing that ball: the page feeds the classifier the
   * same twelve cells it was trained on. Those inputs never take the page's
   * no-balls-left branch. With no negative run counts their numbers lie within
   * the page's input ranges exactly when the row's balls left is between 0
   * and 120 and its wickets left is not negative, and the page can send them
   * exactly when, in addition, both teams and the city are among its choices.
   */
  lemma {:induction false} TrainingSetParity(matches: seq<Match>, deliveries: seq<Delivery>, f: FeatureRow)
    requires f in TrainingSet(matches, deliveries)
    ensures f.city.Some?
    ensures Service.InputCells(Service.Predictors(SnapshotOf(f))) == RowCells(f)[..12]
    ensures Service.Predictors(SnapshotOf(f)).ballsLeft != 0.0 && SnapshotOf(f).overs != 20.0
    ensures f.wickets <= 10 && SnapshotOf(f).wickets >= 0
    ensures (forall d :: d in deliveries ==> d.totalRuns >= 0) ==>
              (Service.WithinWidgetRanges(SnapshotOf(f)) <==> 0 <= f.ballsLeft <= 120 && 0 <= f.wickets)
    ensures (forall d :: d in deliveries ==> d.totalRuns >= 0) ==>
              (Service.PageAccepts(SnapshotOf(f)) <==>
                 f.battingTeam in Service.TeamChoices && f.bowlingTeam in Service.TeamChoices
                 && f.city.value in Service.CityChoices && 0 <= f.ballsLeft <= 120 && 0 <= f.wickets)
  {
    var c, score, outs := TrainingRowSource(matches, deliveries, f);
    RowParity(SnapshotOf(f), c, score, outs);
  }
}

=== FILE: preprocessing.dfy ===
/**
 * Data preprocessing of the training script: the first-innings total of
 * every match, the merge of that total into the match table, the renaming
 * of two legacy franchises, the restriction to current fixtures played
 * without a rain-rule adjustment, and the merge with the delivery table that
 * keeps only the chasing innings.
 */
module Preprocessing {
  import opened Wrappers
  import opened Frames

  /** A row of the match table (the columns the script reads). */
  datatype Match = Match(
    id: int,
    city: Option<string>,
    team1: string,
    team2: string,
    winner: Option<string>,
    dlApplied: int)

  /** A row of the ball-by-ball delivery table (the columns the script reads). */
  datatype Delivery = Delivery(
    matchId: int,
    inning: int,
    battingTeam: string,
    bowlingTeam: string,
    over: int,
    ball: int,
    totalRuns: int,
    playerDismissed: Option<string>)

  /** A match row after the first merge: the match plus its first-innings total. */
  datatype MatchTotal = MatchTotal(
    id: int,
    city: Option<string>,
    team1: string,
    team2: string,
    winner: Option<string>,
    dlApplied: int,
    totalRuns: int)

  /**
   * A row of the second merge: match columns and delivery columns side by
   * side. `totalRunsX` is the match's first-innings total, `totalRunsY` the
   * runs of this one delivery (the suffixes pandas gives the clashing column).
   */
  datatype ChaseRow = ChaseRow(
    matchId: int,
    city: Option<string>,
    winner: Option<string>,
    totalRunsX: int,
    inning: int,
    battingTeam: string,
    bowlingTeam: string,
    over: int,
    ball: int,
    totalRunsY: int,
    playerDismissed: Option<string>)

  /** The eight franchises a retained match must be played between. */
  const Teams: seq<string> := [
    "Sunrisers Hyderabad", "Mumbai Indians", "Royal Challengers Bangalore",
    "Kolkata Knight Riders", "Kings XI Punjab", "Chennai Super Kings",
    "Rajasthan Royals", "Delhi Capitals"
  ]

  // ---------------------------------------------------------------------
  // First-innings totals (groupby match and inning, sum, keep inning 1)
  // ---------------------------------------------------------------------

  /** Runs scored in the first innings of match `id` over the given deliveries. */
  function InningOneRuns(ds: seq<Delivery>, id: int): int
  {
    if ds == [] then 0
    else
      var d := ds[|ds| - 1];
      InningOneRuns(ds[..|ds| - 1], id) + (if d.matchId == id && d.inning == 1 then d.totalRuns else 0)
  }

  /** With no negative run counts, a first-innings total is never negative. */
  lemma {:induction false} InningOneRunsNonNegative(ds: seq<Delivery>, id: int)
    requires forall d :: d in ds ==> d.totalRuns >= 0
    ensures InningOneRuns(ds, id) >= 0
  {
    if ds != [] {
      var prefix := ds[..|ds| - 1];
      assert forall d :: d in prefix ==> d in ds;
      assert ds[|ds| - 1] in ds;
      InningOneRunsNonNegative(prefix, id);
    }
  }

  /** Some delivery of the first innings of match `id` is present (so the group exists). */
  predicate PlayedInningOne(ds: seq<Delivery>, id: int)
  {
    exists j :: 0 <= j < |ds| && ds[j].matchId == id && ds[j].inning == 1
  }

  /** A match without first-innings deliveries has scored no first-innings runs. */
  lemma {:induction false} AbsentInningOneScoresNothing(ds: seq<Delivery>, id: int)
    requires !PlayedInningOne(ds, id)
    ensures InningOneRuns(ds, id) == 0
  {
    if ds != [] {
      var prefix := ds[..|ds| - 1];
      forall j | 0 <= j < |prefix|
        ensures !(prefix[j].matchId == id && prefix[j].inning == 1)
      {
        assert prefix[j] == ds[j];
      }
      AbsentInningOneScoresNothing(prefix, id);
    }
  }

  /**
   * The first-innings total of every match: one entry per match that has a
   * first-innings delivery, holding the sum of that innings' runs.
   */
  function FirstInningsTotals(ds: seq<Delivery>): (t: map<int, int>)
    ensures forall id :: id in t <==> PlayedInningOne(ds, id)
    ensures forall id :: id in t ==> t[id] == InningOneRuns(ds, id)
  {
    if ds == [] then map[]
    else
      var prefix := ds[..|ds| - 1];
      var d := ds[|ds| - 1];
      var t := FirstInningsTotals(prefix);
      assert forall id :: PlayedInningOne(ds, id) <==> PlayedInningOne(prefix, id) || (d.matchId == id && d.inning == 1) by {
        forall id ensures PlayedInningOne(ds, id) <==> PlayedInningOne(prefix, id) || (d.matchId == id && d.inning == 1) {
          if PlayedInningOne(ds, id) {
            var j :| 0 <= j < |ds| && ds[j].matchId == id && ds[j].inning == 1;
            if j < |prefix| { assert prefix[j] == ds[j]; }
          }
          if PlayedInningOne(prefix, id) {
            var j :| 0 <= j < |prefix| && prefix[j].matchId == id && prefix[j].inning == 1;
            assert ds[j] == prefix[j];
          }
        }
      }
      if d.inning != 1 then t
      else if d.matchId in t then t[d.matchId := t[d.matchId] + d.totalRuns]
      else
        AbsentInningOneScoresNothing(prefix, d.matchId);
        t[d.matchId := d.totalRuns]
  }

  /** The accumulation the script's groupby-sum performs, one delivery at a time. */
  method SumFirstInnings(ds: seq<Delivery>) returns (totals: map<int, int>)
    ensures totals == FirstInningsTotals(ds)
    ensures forall id :: id in totals <==> PlayedInningOne(ds, id)
    ensures forall id :: id in totals ==> totals[id] == InningOneRuns(ds, id)
  {
    totals := map[];
    var i := 0;
    while i < |ds|
      invariant 0 <= i <= |ds|
      invariant totals == FirstInningsTotals(ds[..i])
    {
      var d := ds[i];
      assert ds[..i + 1][..i] == ds[..i];
      if d.inning == 1 {
        if d.matchId in totals {
          totals := totals[d.matchId := totals[d.matchId] + d.totalRuns];
        } else {
          totals := totals[d.matchId := d.totalRuns];
        }
      }
      i := i + 1;
    }
    assert ds[..i] == ds;
  }

  // ---------------------------------------------------------------------
  // First merge: match table with the first-innings totals (inner join)
  // ---------------------------------------------------------------------

  function WithTotal(m: Match, total: int): MatchTotal
  {
    MatchTotal(m.id, m.city, m.team1, m.team2, m.winner, m.dlApplied, total)
  }

  /**
   * Inner join of the match table with the totals on the match id: matches
   * without a first-innings total disappear, the others keep their order.
   */
  function AttachTotals(ms: seq<Match>, totals: map<int, int>): (r: seq<MatchTotal>)
    ensures forall x :: x in r ==> x.id in totals && x.totalRuns == totals[x.id]
    ensures forall x :: x in r <==> exists m :: m in ms && m.id in totals && x == WithTotal(m, totals[m.id])
    ensures var kept := Filter(ms, HasTotal(totals));
      |r| == |kept| && forall i :: 0 <= i < |kept| ==> kept[i].id in totals && r[i] == WithTotal(kept[i], totals[kept[i].id])
  {
    if ms == [] then []
    else
      var rest := AttachTotals(ms[1..], totals);
      assert forall m :: m in ms <==> m == ms[0] || m in ms[1..];
      var kept := Filter(ms, HasTotal(totals));
      if ms[0].id in totals then
        assert kept == [ms[0]] + Filter(ms[1..], HasTotal(totals));
        [WithTotal(ms[0], totals[ms[0].id])] + rest
      else
        assert kept == Filter(ms[1..], HasTotal(totals));
        rest
  }

  /** The mask selecting the matches that have a first-innings total. */
  function HasTotal(totals: map<int, int>): Match -> bool
  {
    (m: Match) => m.id in totals
  }

  // ---------------------------------------------------------------------
  // Team renaming and the fixture filter
  // ---------------------------------------------------------------------

  /** The two legacy franchise names are mapped to their current names; every other name is kept. */
  function Rename(team: string): (r: string)
    ensures team == "Delhi Daredevils" ==> r == "Delhi Capitals"
    ensures team == "Deccan Chargers" ==> r == "Sunrisers Hyderabad"
    ensures team != "Delhi Daredevils" && team != "Deccan Chargers" ==> r == team
  {
    if team == "Delhi Daredevils" then "Delhi Capitals"
    else if team == "Deccan Chargers" then "Sunrisers Hyderabad"
    else team
  }

  /** Renaming is idempotent: no new name is itself an old name. */
  lemma RenameIdempotent(team: string)
    ensures Rename(Rename(team)) == Rename(team)
    ensures Rename(team) != "Delhi Daredevils" && Rename(team) != "Deccan Chargers"
  {
  }

  /** Replace the team columns of the match table. */
  function RenameTeams(ms: seq<MatchTotal>): (r: seq<MatchTotal>)
    ensures |r| == |ms|
    ensures forall i :: 0 <= i < |ms| ==>
      r[i] == ms[i].(team1 := Rename(ms[i].team1), team2 := Rename(ms[i].team2))
  {
    seq(|ms|, i requires 0 <= i < |ms| => ms[i].(team1 := Rename(ms[i].team1), team2 := Rename(ms[i].team2)))
  }

  /** Both teams are current franchises and no rain-rule adjustment was applied. */
  predicate IsCurrentFixture(m: MatchTotal)
  {
    m.team1 in Teams && m.team2 in Teams && m.dlApplied == 0
  }

  /** The match table the script works with after the first merge, the renaming and the filter. */
  function MatchTable(matches: seq<Match>, deliveries: seq<Delivery>): (r: seq<MatchTotal>)
    ensures forall x :: x in r ==> x.team1 in Teams && x.team2 in Teams && x.dlApplied == 0
  {
    Filter(RenameTeams(AttachTotals(matches, FirstInningsTotals(deliveries))), IsCurrentFixture)
  }

  /**
   * Every retained match comes from an input match whose renamed teams are
   * both current franchises, with no rain-rule adjustment, and carries the
   * run total of that match's first innings.
   */
  lemma {:induction false} RetainedMatches(matches: seq<Match>, deliveries: seq<Delivery>, x: MatchTotal)
    requires x in MatchTable(matches, deliveries)
    ensures x.team1 in Teams && x.team2 in Teams && x.dlApplied == 0
    ensures PlayedInningOne(deliveries, x.id) && x.totalRuns == InningOneRuns(deliveries, x.id)
    ensures exists m :: m in matches && m.id == x.id && m.dlApplied == 0 && m.city == x.city && m.winner == x.winner
                        && Rename(m.team1) == x.team1 && Rename(m.team2) == x.team2
  {
    var totals := FirstInningsTotals(deliveries);
    var attached := AttachTotals(matches, totals);
    var renamed := RenameTeams(attached);
    assert x in renamed && IsCurrentFixture(x);
    var i :| 0 <= i < |renamed| && renamed[i] == x;
    assert attached[i] in attached;
    var m :| m in matches && m.id in totals && attached[i] == WithTotal(m, totals[m.id]);
  }

  // ---------------------------------------------------------------------
  // Second merge: retained matches with their deliveries, inning 2 only
  // ---------------------------------------------------------------------

  function Combine(m: MatchTotal, d: Delivery): ChaseRow
  {
    ChaseRow(m.id, m.city, m.winner, m.totalRuns, d.inning, d.battingTeam, d.bowlingTeam,
             d.over, d.ball, d.totalRuns, d.playerDismissed)
  }

  /** The mask selecting the deliveries of one match. */
  function OfMatch(id: int): Delivery -> bool
  {
    (d: Delivery) => d.matchId == id
  }

  /** The mask selecting the match-table rows with one id. */
  function MatchOf(id: int): MatchTotal -> bool
  {
    (m: MatchTotal) => m.id == id
  }

  /** The mask selecting the joined rows of one match. */
  function ChaseOfMatch(id: int): ChaseRow -> bool
  {
    (c: ChaseRow) => c.matchId == id
  }

  /** One match combined with each of a run of deliveries, in their order. */
  function CombineAll(m: MatchTotal, ds: seq<Delivery>): seq<ChaseRow>
  {
    seq(|ds|, i requires 0 <= i < |ds| => Combine(m, ds[i]))
  }

  /** The deliveries of one match, in delivery-table order, joined to that match. */
  function JoinOne(m: MatchTotal, ds: seq<Delivery>): (r: seq<ChaseRow>)
    ensures r == CombineAll(m, Filter(ds, OfMatch(m.id)))
    ensures forall c :: c in r <==> exists d :: d in ds && d.matchId == m.id && c == Combine(m, d)
  {
    if ds == [] then []
    else
      assert forall d :: d in ds <==> d == ds[0] || d in ds[1..];
      var rest := JoinOne(m, ds[1..]);
      assert ds[0].matchId == m.id ==> [Combine(m, ds[0])] + rest == CombineAll(m, [ds[0]] + Filter(ds[1..], OfMatch(m.id)));
      (if ds[0].matchId == m.id then [Combine(m, ds[0])] else []) + rest
  }

  /** Inner join on the match id, ordered by the match table and then by the delivery table. */
  function Join(ms: seq<MatchTotal>, ds: seq<Delivery>): (r: seq<ChaseRow>)
    ensures forall c :: c in r <==> exists m, d :: m in ms && d in ds && d.matchId == m.id && c == Combine(m, d)
  {
    if ms == [] then []
    else
      assert forall m :: m in ms <==> m == ms[0] || m in ms[1..];
      JoinOne(ms[0], ds) + Join(ms[1..], ds)
  }

  /**
   * The joined rows of one match id, taken in merge order, are the join of
   * the match-table rows with that id: selecting one id after the merge
   * gives the same rows, in the same order, as selecting it before.
   */
  lemma {:induction false} JoinByMatch(ms: seq<MatchTotal>, ds: seq<Delivery>, id: int)
    ensures Filter(Join(ms, ds), ChaseOfMatch(id)) == Join(Filter(ms, MatchOf(id)), ds)
  {
    if ms != [] {
      var first := JoinOne(ms[0], ds);
      JoinByMatch(ms[1..], ds, id);
      FilterConcat(first, Join(ms[1..], ds), ChaseOfMatch(id));
      FilterAllOrNone(first, ChaseOfMatch(id));
      if ms[0].id == id {
        var kept := Filter(ms, MatchOf(id));
        assert kept[0] == ms[0] && kept[1..] == Filter(ms[1..], MatchOf(id));
      }
    }
  }

  /**
   * When exactly one match-table row has the id, the joined rows of that
   * match are its deliveries, in delivery-table order, each combined with it.
   */
  lemma JoinOfOneMatch(ms: seq<MatchTotal>, ds: seq<Delivery>, m: MatchTotal)
    requires Filter(ms, MatchOf(m.id)) == [m]
    ensures Filter(Join(ms, ds), ChaseOfMatch(m.id)) == CombineAll(m, Filter(ds, OfMatch(m.id)))
  {
    JoinByMatch(ms, ds, m.id);
    assert [m][1..] == [];
  }

  predicate IsSecondInnings(c: ChaseRow)
  {
    c.inning == 2
  }

  /** The delivery table of the feature-engineering stage: chasing-innings balls of retained matches. */
  function ChaseTable(matches: seq<Match>, deliveries: seq<Delivery>): (r: seq<ChaseRow>)
    ensures forall c :: c in r ==> c.inning == 2
  {
    Filter(Join(MatchTable(matches, deliveries), deliveries), IsSecondInnings)
  }

  /**
   * Every row of the chase table is a second-innings delivery of the input
   * whose match is retained; its target is that match's first-innings total.
   */
  lemma {:induction false} ChaseRows(matches: seq<Match>, deliveries: seq<Delivery>, c: ChaseRow)
    requires c in ChaseTable(matches, deliveries)
    ensures c.inning == 2
    ensures PlayedInningOne(deliveries, c.matchId) && c.totalRunsX == InningOneRuns(deliveries, c.matchId)
    ensures exists m, d :: m in MatchTable(matches, deliveries) && IsCurrentFixture(m) && d in deliveries
                           && d.inning == 2 && d.matchId == m.id && c == Combine(m, d)
  {
    var table := MatchTable(matches, deliveries);
    assert c in Join(table, deliveries);
    var m, d :| m in table && d in deliveries && d.matchId == m.id && c == Combine(m, d);
    RetainedMatches(matches, deliveries, m);
  }

  /** Conversely, every second-innings delivery of a retained match reaches the chase table. */
  lemma {:induction false} ChaseRowsComplete(matches: seq<Match>, deliveries: seq<Delivery>, m: MatchTotal, d: Delivery)
    requires m in MatchTable(matches, deliveries) && d in deliveries
    requires d.matchId == m.id && d.inning == 2
    ensures Combine(m, d) in ChaseTable(matches, deliveries)
  {
  }

  predicate IsSecondDelivery(d: Delivery)
  {
    d.inning == 2
  }

  /** Combining a match with one more leading delivery adds one leading row. */
  lemma CombineAllCons(m: MatchTotal, d: Delivery, ds: seq<Delivery>)
    ensures CombineAll(m, [d] + ds) == [Combine(m, d)] + CombineAll(m, ds)
  {
    var combined, expected := CombineAll(m, [d] + ds), [Combine(m, d)] + CombineAll(m, ds);
    forall i | 0 <= i < |combined| ensures combined[i] == expected[i] {
      if i > 0 {
        assert ([d] + ds)[i] == ds[i - 1];
      }
    }
  }

  /** Combining with a match keeps the innings, so selecting the chase commutes with combining. */
  lemma {:induction false} CombineAllSecondInnings(m: MatchTotal, ds: seq<Delivery>)
    ensures Filter(CombineAll(m, ds), IsSecondInnings) == CombineAll(m, Filter(ds, IsSecondDelivery))
  {
    if ds != [] {
      var rest := Filter(ds[1..], IsSecondDelivery);
      CombineAllSecondInnings(m, ds[1..]);
      CombineAllCons(m, ds[0], ds[1..]);
      assert ds == [ds[0]] + ds[1..];
      if IsSecondDelivery(ds[0]) {
        CombineAllCons(m, ds[0], rest);
      }
    }
  }

  /**
   * The chase-table rows of a retained match whose id is unique in the match
   * table are that match's second-innings deliveries, in delivery-table
   * order: the order the running sums of the feature stage accumulate in.
   */
  lemma {:induction false} ChaseRowsOfOneMatch(matches: seq<Match>, deliveries: seq<Delivery>, m: MatchTotal)
    requires Filter(MatchTable(matches, deliveries), MatchOf(m.id)) == [m]
    ensures Filter(ChaseTable(matches, deliveries), ChaseOfMatch(m.id))
            == CombineAll(m, Filter(Filter(deliveries, OfMatch(m.id)), IsSecondDelivery))
  {
    var joined := Join(MatchTable(matches, deliveries), deliveries);
    var both := (c: ChaseRow) => IsSecondInnings(c) && ChaseOfMatch(m.id)(c);
    FilterTwice(joined, IsSecondInnings, ChaseOfMatch(m.id), both);
    FilterTwice(joined, ChaseOfMatch(m.id), IsSecondInnings, both);
    JoinOfOneMatch(MatchTable(matches, deliveries), deliveries, m);
    CombineAllSecondInnings(m, Filter(deliveries, OfMatch(m.id)));
  }
}

=== FILE: service.dfy ===
/**
 * The prediction page: the features it recomputes from the match state the
 * user enters, and the one-row frame it hands to the trained pipeline.
 */
module Service {
  import opened Frames

  /** The match state entered on the page. */
  datatype Snapshot = Snapshot(
    battingTeam: string,
    bowlingTeam: string,
    city: string,
    target: int,
    score: int,
    overs: real,
    wickets: int)

  /** The team names the page's two team boxes offer. */
  const TeamChoices: seq<string> := [
    "Sunrisers Hyderabad", "Mumbai Indians", "Royal Challengers Bangalore",
    "Kolkata Knight Riders", "Kings XI Punjab", "Chennai Super Kings",
    "Rajasthan Royals", "Delhi Capitals"
  ]

  /** The host cities the page's city box offers. */
  const CityChoices: seq<string> := [
    "Hyderabad", "Bangalore", "Mumbai", "Indore", "Kolkata", "Delhi",
    "Chandigarh", "Jaipur", "Chennai", "Cape Town", "Port Elizabeth",
    "Durban", "Centurion", "East London", "Johannesburg", "Kimberley",
    "Bloemfontein", "Ahmedabad", "Cuttack", "Nagpur", "Dharamsala",
    "Visakhapatnam", "Pune", "Raipur", "Ranchi", "Abu Dhabi",
    "Sharjah", "Mohali", "Bengaluru"
  ]

  /** The ranges the page's number inputs enforce: within them no count derived from the overs or the wickets leaves its range. */
  predicate WithinWidgetRanges(s: Snapshot)
    ensures WithinWidgetRanges(s) ==> 0.0 <= 120.0 - s.overs * 6.0 <= 120.0 && 0 <= 10 - s.wickets <= 10
  {
    s.target >= 0 && s.score >= 0 && 0.0 <= s.overs <= 20.0 && 0 <= s.wickets <= 10
  }

  /**
   * A snapshot the page can send: both team boxes and the city box hold one
   * of their choices, and every number is within its range. The legacy
   * franchise names are not among the choices.
   */
  predicate PageAccepts(s: Snapshot)
    ensures PageAccepts(s) ==> s.battingTeam != "Delhi Daredevils" && s.battingTeam != "Deccan Chargers"
    ensures PageAccepts(s) ==> s.bowlingTeam != "Delhi Daredevils" && s.bowlingTeam != "Deccan Chargers"
  {
    s.battingTeam in TeamChoices && s.bowlingTeam in TeamChoices && s.city in CityChoices && WithinWidgetRanges(s)
  }

  /** The feature row the page builds; `wickets` holds the wickets still in hand. */
  datatype InputRow = InputRow(
    battingTeam: string,
    bowlingTeam: string,
    city: string,
    runsLeft: int,
    ballsLeft: real,
    wickets: int,
    totalRunsX: int,
    crr: real,
    rrr: real,
    wicketsLeftPercentage: real,
    ballsLeftPercentage: real,
    runsLeftPercentage: real)

  /**
   * The features recomputed from a snapshot. Overs are taken at face value
   * (10.3 overs is 61.8 balls), and the target is the runs entered, used as is.
   */
  function Predictors(s: Snapshot): (r: InputRow)
    ensures r.battingTeam == s.battingTeam && r.bowlingTeam == s.bowlingTeam && r.city == s.city
    ensures r.runsLeft + s.score == s.target && r.totalRunsX == s.target
    ensures r.ballsLeft + s.overs * 6.0 == 120.0
    ensures r.wickets + s.wickets == 10
    ensures s.overs <= 0.0 ==> r.crr == 0.0
    ensures r.ballsLeft <= 0.0 ==> r.rrr == 20.0
    ensures r.wicketsLeftPercentage * 10.0 == r.wickets as real
    ensures r.ballsLeftPercentage * 120.0 == r.ballsLeft
    ensures s.target <= 0 ==> r.runsLeftPercentage == 0.0
  {
    var runsLeft := s.target - s.score;
    var ballsLeft := 120.0 - s.overs * 6.0;
    var wicketsLeft := 10 - s.wickets;
    var crr := if s.overs > 0.0 then s.score as real / s.overs else 0.0;
    var rrr := if ballsLeft > 0.0 then (runsLeft * 6) as real / ballsLeft else 20.0;
    InputRow(
      s.battingTeam, s.bowlingTeam, s.city, runsLeft, ballsLeft, wicketsLeft, s.target, crr, rrr,
      wicketsLeft as real / 10.0,
      ballsLeft / 120.0,
      if s.target > 0 then runsLeft as real / s.target as real else 0.0)
  }

  /**
   * What the page's three ratios mean when their guard holds: the current
   * rate times the overs gives the score, the required rate times the balls
   * left gives six times the runs left, and the share times the target gives
   * the runs left.
   */
  lemma RatiosScale(s: Snapshot)
    ensures s.overs > 0.0 ==> Predictors(s).crr * s.overs == s.score as real
    ensures Predictors(s).ballsLeft > 0.0 ==> Predictors(s).rrr * Predictors(s).ballsLeft == (Predictors(s).runsLeft * 6) as real
    ensures s.target > 0 ==> Predictors(s).runsLeftPercentage * s.target as real == Predictors(s).runsLeft as real
  {
  }

  /**
   * Within the page's input ranges the wickets in hand lie in [0, 10], the
   * balls left in [0, 120] and both of their percentages in [0, 1]; no
   * overs gives a current rate of exactly 0, twenty overs a required rate of
   * exactly 20, and a zero target a runs-left share of exactly 0.
   */
  lemma WidgetRangeBounds(s: Snapshot)
    requires WithinWidgetRanges(s)
    ensures 0 <= Predictors(s).wickets <= 10
    ensures 0.0 <= Predictors(s).wicketsLeftPercentage <= 1.0
    ensures 0.0 <= Predictors(s).ballsLeft <= 120.0
    ensures 0.0 <= Predictors(s).ballsLeftPercentage <= 1.0
    ensures s.overs == 0.0 ==> Predictors(s).crr == 0.0
    ensures s.overs == 20.0 ==> Predictors(s).ballsLeft == 0.0 && Predictors(s).rrr == 20.0
    ensures s.target == 0 ==> Predictors(s).runsLeftPercentage == 0.0
  {
  }

  /** The page's worked case: chasing 180, on 90 after ten overs, two wickets down. */
  lemma WorkedExample()
    ensures var r := Predictors(Snapshot("Mumbai Indians", "Chennai Super Kings", "Mumbai", 180, 90, 10.0, 2));
      && r.runsLeft == 90 && r.ballsLeft == 60.0 && r.wickets == 8
      && r.crr == 9.0 && r.rrr == 9.0
      && r.wicketsLeftPercentage == 0.8 && r.ballsLeftPercentage == 0.5 && r.runsLeftPercentage == 0.5
  {
  }

  /** The frame's column names, in the order the page lists them. */
  const InputColumns: seq<string> := [
    "batting_team", "bowling_team", "city", "runs_left", "balls_left",
    "wickets", "total_runs_x", "crr", "rrr", "wickets_left_percentage",
    "balls_left_percentage", "runs_left_percentage"
  ]

  /** The one-row frame as cells, one per entry of InputColumns. */
  function InputCells(r: InputRow): (cells: seq<Cell>)
    ensures |cells| == |InputColumns|
    ensures NaN !in cells
  {
    [Text(r.battingTeam), Text(r.bowlingTeam), Text(r.city),
     Num(r.runsLeft as real), Num(r.ballsLeft), Num(r.wickets as real),
     Num(r.totalRunsX as real), Num(r.crr), Num(r.rrr), Num(r.wicketsLeftPercentage),
     Num(r.ballsLeftPercentage), Num(r.runsLeftPercentage)]
  }
}

=== FILE: wrappers.dfy ===
/** A value that may be absent: how a pandas cell that may hold NaN is modelled. */
module Wrappers {
  datatype Option<+T> = None | Some(value: T)
}
